=== FILE: README.md ===
# Portfolio front end: hero content, navigation menu, word rotation, splash screen

This project models the logic in a portfolio site's front end. Time and the
animation engine are reduced to abstract events.

- **Hero content** (`HeroContent`, with `StrapiFetch` and `Js`). The home page
  turns the backend payload into a hero image URL and a list of rotating words.
  Each value is computed in its own try block and falls back to a default on any
  exception. The payload is an untyped JavaScript value: it is either the parsed
  JSON body or the sentinel object that the fetch wrapper returns on failure.
  `Js` models what the page relies on: truthiness, `.` and `?.` reads, `v[0]`,
  string coercion by `+`, and the `textContent` setter.
- **Navigation menu** (`NavBar`, `NavDropdown`). The menu state is
  `isOpen`/`mounted`. It changes on toggle, link click, viewport resize
  (breakpoint 1024) and mount. The model also covers the index-based array of
  dropdown element handles, the icon's rotation target, and the dropdown's CSS
  display as its open and close effects drive it.
- **Word rotation** (`HomePage`). The timeline has a fade-out, fade-in and hold
  step for every word after the first. The model folds that timeline into the
  text the span shows. It also covers the image source with its placeholder
  fallback, the ref guards on each animation, and the targets the cleanup kills.
- **Splash screen** (`LayoutLoading`). A 2000 ms timer starts the outro. The
  logo exit tween then completes, and a 600 ms delay follows before the children
  replace the splash. Unmount clears the timer and kills the heartbeat. The
  model also covers the index pattern of the particle position buffer fill.

Three details of the code shape the model:

- The fetch-failure sentinel's `data` is `{ attributes: {} }`.
- Unmounting the splash cancels neither the exit tween nor the 600 ms delay.
  Their callbacks still fire, and React ignores the state update.
- The dropdown's effects never cancel an in-flight closing tween before
  opening. The finding below follows from this.

## Model

| member | source | states |
|---|---|---|
| StrapiFetch.GetStrapiData | frontend/src/hooks/getData.ts:2-14 | a success status with a parsable body returns that body; every other outcome returns the sentinel carrying base URL + path, and a bad status carries the "HTTP error! status: N" error; nothing is thrown |
| Js.Get | frontend/src/app/page.tsx:17 | a property read throws exactly on null/undefined, reads an object's own field, is undefined for an object without that field, and is undefined on any other value |
| Js.At0 | frontend/src/app/page.tsx:16 | `v[0]` throws exactly on null/undefined; it is the first element of a non-empty array, the first character of a non-empty string, an object's field "0", and undefined otherwise (so the sentinel's `{ attributes: {} }[0]` is undefined) |
| Js.OptGet | frontend/src/app/page.tsx:16 | `v?.p` is undefined on null/undefined and otherwise agrees with the plain read, so it never throws |
| Js.ToStr | frontend/src/app/page.tsx:17 | converting for `+` throws exactly when the value is an object with its own `toString` field or an array holding such a value; a string converts to itself, an integer to its decimal digits, another object to "[object Object]", an empty array to "" |
| Js.StringArrayJoins | frontend/src/app/page.tsx:17 | an array of strings converts to those strings joined with "," |
| Js.TextContent | frontend/src/modules/HomePage.tsx:85 | assigning a string shows that string; null and undefined clear the span; the assignment throws exactly when converting the value throws |
| HeroContent.FirstEntry | frontend/src/app/page.tsx:16 | reading `strapiData.data[0]` throws exactly when the payload or its `data` field is null or undefined |
| HeroContent.HeroImageUrl | frontend/src/app/page.tsx:13-21 | when the access throws the URL stays null; otherwise it is base + the converted url exactly when the url field is truthy and its conversion by `+` does not throw, and null otherwise; a set URL always starts with the base |
| HeroContent.UnconvertibleUrlKeepsNull | frontend/src/app/page.tsx:16-21 | a truthy url field whose conversion throws (an object with its own `toString` field) is caught and leaves the URL null |
| HeroContent.ImageUrlFromStringField | frontend/src/app/page.tsx:14-18 | for a string url field s, the URL is base + s when s is non-empty and null for the empty string |
| HeroContent.ThrowingAccessKeepsDefaults | frontend/src/app/page.tsx:15-31 | a null payload or a null/missing `data` field gives a null URL and the default words, with nothing propagated |
| HeroContent.TextsOf | frontend/src/app/page.tsx:28 | `map(item => item.Text)` succeeds exactly when no item is null/undefined, and then yields each item's Text in order, one per item |
| HeroContent.Words | frontend/src/app/page.tsx:23-32 | the word list is never empty and always starts with " "; unless it is the default, it has one word per HeroText item plus the leading " ", and HeroText is a non-empty array |
| HeroContent.WordsFromHeroText | frontend/src/app/page.tsx:26-28 | a non-empty HeroText array of n non-null items gives n+1 words: " " followed by each item's Text in order |
| HeroContent.WordsDefaultWithoutHeroText | frontend/src/app/page.tsx:24-29 | an absent, falsy, non-array or empty HeroText keeps the five default words |
| HeroContent.WordsDefaultWhenItemNullish | frontend/src/app/page.tsx:25-31 | a null/undefined HeroText item makes the map throw, and the catch keeps the default words |
| HeroContent.Derive | frontend/src/app/page.tsx:13-35 | on every payload the words start with " " and are non-empty, and a set image URL starts with the base URL |
| HeroContent.FetchFailureYieldsDefaults | frontend/src/hooks/getData.ts:12 | every failed fetch, through the sentinel, yields a null image URL and the default words |
| HeroContent.EncodedFirstEntry | frontend/src/app/page.tsx:16 | for a well-formed body, `data[0]` is the first record, or undefined when there are none |
| HeroContent.RecordImage | frontend/src/app/page.tsx:16-18 | for a well-formed first record, the URL is base + its url when the url is non-empty, and null otherwise |
| HeroContent.RecordWords | frontend/src/app/page.tsx:24-28 | for a well-formed first record, the words are " " followed by its texts when it has any, and the defaults otherwise |
| HeroContent.DeriveFromBackendRecords | frontend/src/app/page.tsx:13-32 | for a well-formed backend body the result equals an independent definition: only the first record counts, its url is used when non-empty, its texts (after " ") when there is at least one |
| NavBar.Step | frontend/src/components/NavBar.tsx:165-180 | only mount sets mounted (the effect at NavBar.tsx:29-31), and nothing clears it; mount keeps isOpen; toggle flips isOpen; only a toggle can open; a mounted link click closes; a resize closes exactly when mounted and width >= 1024; before mount a link click or resize changes nothing, since the links render only once mounted (NavBar.tsx:247) |
| NavBar.ToggleTwiceRestores | frontend/src/components/NavBar.tsx:178-180 | two toggles restore the original state |
| NavBar.ResizeIdempotent | frontend/src/components/NavBar.tsx:166-176 | a repeated resize to the same width changes nothing more |
| NavBar.DesktopResizesClose | frontend/src/components/NavBar.tsx:166-176 | any burst of desktop-width resizes leaves a mounted menu closed and otherwise unchanged; it is closed once and never reopened |
| NavBar.MountedIsStable | frontend/src/components/NavBar.tsx:28-31 | once mounted, every later state is mounted |
| NavBar.MountedIffMountEvent | frontend/src/components/NavBar.tsx:247-274 | from an unmounted state the dropdown is rendered exactly when a mount event has occurred |
| NavBar.OnlyToggleOpens | frontend/src/components/NavBar.tsx:165-180 | from a closed menu, any run without a toggle leaves it closed |
| NavBar.SetSlot | frontend/src/components/NavBar.tsx:182-187 | writing slot i sets slot i, keeps every other slot, and grows the array with empty holes when i is past the end |
| NavBar.AttachAllFills | frontend/src/components/NavBar.tsx:254-270 | the dropdown's ref callbacks fill slots 0..3 with the links and slot 4 (`navItems.length`) with Resume |
| NavBar.IconRotation | frontend/src/components/NavBar.tsx:154-163 | the icon tween runs exactly when the icon is attached and the bar mounted, aiming at 90 when open and 0 when closed |
| NavBar.DesktopResizeRestsIcon | frontend/src/components/NavBar.tsx:154-176 | after a desktop resize a mounted icon aims at rotation 0 |
| NavDropdown.Setup | frontend/src/components/NavBar.tsx:84-103 | the mount setup hides the dropdown (display none) |
| NavDropdown.Animate | frontend/src/components/NavBar.tsx:105-152 | opening sets display block, and as written keeps running closing tweens; closing only adds a closing tween and leaves display alone |
| NavDropdown.Step | frontend/src/components/NavBar.tsx:105-152 | UI events update the menu as NavBar.Step does; the display turns from block to none only when a closing tween completes or at the mount setup |
| NavDropdown.OpeningShowsImmediately | frontend/src/components/NavBar.tsx:109-120 | opening a mounted menu makes the dropdown display block at once, before any tween |
| NavDropdown.HidingWaitsForTween | frontend/src/components/NavBar.tsx:131-150 | no UI event hides the dropdown except the mount setup; hiding waits for the closing tween's completion |
| NavDropdown.NoEffectBeforeMount | frontend/src/components/NavBar.tsx:106-107 | before mount the open/close effect is a no-op |
| NavDropdown.CancelOnOpenPreservesConsistent | frontend/src/components/NavBar.tsx:105-152 | with closing tweens cancelled on open, each input keeps "open means shown, closed means hidden or still closing" |
| NavDropdown.CancelOnOpenAlwaysConsistent | frontend/src/components/NavBar.tsx:105-152 | the same invariant holds after any sequence of inputs |
| NavDropdown.OpenMenuIsVisible | frontend/src/components/NavBar.tsx:105-152 | in every reachable state of the corrected effects, a mounted open menu displays its dropdown |
| NavDropdown.AsWrittenHidesOpenMenu | frontend/src/components/NavBar.tsx:131-150 | as written, mount, open, close, a reopen within the closing tween, and its completion leave the menu open with display none |
| NavDropdown.CancelOnOpenShowsOpenMenu | frontend/src/components/NavBar.tsx:109-150 | the corrected effects keep the same sequence of inputs open and shown |
| HomePage.Timeline | frontend/src/modules/HomePage.tsx:77-99 | n words give 3(n-1) steps; group k is fade-out writing words[k], then fade-in, then hold, in input order |
| HomePage.TimelineWritesTail | frontend/src/modules/HomePage.tsx:77-88 | one cycle writes exactly words[1..], once each and in order; words[0] is never written |
| HomePage.Write | frontend/src/modules/HomePage.tsx:83-87 | the fade-out callback's assignment shows the word's converted text, and when the conversion throws the span keeps its previous text |
| HomePage.Play | frontend/src/modules/HomePage.tsx:77-99 | playing steps leaves the span either with its initial text or with the text of one of the words the steps write |
| HomePage.PlayWithoutSpan | frontend/src/modules/HomePage.tsx:83-87 | with the span ref gone, no step changes the text |
| HomePage.PlayGroup | frontend/src/modules/HomePage.tsx:79-97 | one word's fade-out, fade-in and hold amount to that word's write |
| HomePage.PlayTimelineSnoc | frontend/src/modules/HomePage.tsx:77-99 | a cycle over n words is the cycle over the first n-1 followed by the last word's write |
| HomePage.ShownDuringGroup | frontend/src/modules/HomePage.tsx:79-97 | right after the k-th fade-out, and through its fade-in and hold, the span shows the write of words[k] over the previous text: words[k] itself unless its conversion throws |
| HomePage.CycleEndsOnLastWord | frontend/src/modules/HomePage.tsx:71-99 | each cycle ends with the last word's write, showing the last word unless its conversion throws, and repeating a cycle leaves the end text unchanged |
| HomePage.RepeatedCycleKeepsText | frontend/src/modules/HomePage.tsx:71-74 | for any words, including ones whose conversion throws, a second cycle of the repeating timeline ends on the same text as the first |
| HomePage.SingleWordNeverRotates | frontend/src/modules/HomePage.tsx:77-78 | a single word gives no steps and the span keeps its text |
| HomePage.ImageSource | frontend/src/modules/HomePage.tsx:149 | the image is the hero URL exactly when it is a non-empty string, otherwise the placeholder |
| HomePage.RemoteImageExactlyWhenUrlTruthy | frontend/src/modules/HomePage.tsx:148-149 | with a non-empty base URL, the backend image is shown exactly when the payload's url field is truthy and converts to a string |
| HomePage.Effect | frontend/src/modules/HomePage.tsx:28-100 | the ornaments spin exactly when both refs are attached, the image slides exactly when image and container refs are, and the rotation of these words starts exactly when the span ref is; no other animation is started, only attached refs are animated, and never the container |
| HomePage.Cleanup | frontend/src/modules/HomePage.tsx:102-108 | cleanup kills exactly the four animated elements that are still attached, and never the container |
| HomePage.CleanupCoversEffect | frontend/src/modules/HomePage.tsx:102-109 | with the same refs at cleanup as at setup, as on a rerun for new words, cleanup kills every element the effect animated |
| HomePage.RunCleanup | frontend/src/modules/HomePage.tsx:102-108 | as written the cleanup kills the attached ones among the refs it reads when it runs; the corrected cleanup kills those attached when the effect ran |
| HomePage.UnmountCleanupKillsNothing | frontend/src/modules/HomePage.tsx:102-108 | on unmount the refs are already detached, so the cleanup as written kills nothing although the effect started the endless word rotation |
| HomePage.CapturedCleanupCoversEffect | frontend/src/modules/HomePage.tsx:28-108 | a cleanup over the elements captured at setup kills everything the effect started, whatever refs are attached when it runs |
| HomePage.RestartUsesNewWords | frontend/src/modules/HomePage.tsx:69-109 | with the span attached, the old run rotates the old words, its cleanup kills the span's tweens, and the rerun for new words starts the new words' timeline and not the old one |
| LayoutLoading.Mount | frontend/src/components/layout/LayoutLoading.tsx:12-21 | the initial state is loading with no outro and a pending timer; the heartbeat exists exactly when the logo was attached |
| LayoutLoading.Render | frontend/src/components/layout/LayoutLoading.tsx:206-223 | the children render exactly when loading is false; otherwise the splash renders |
| LayoutLoading.Step | frontend/src/components/layout/LayoutLoading.tsx:65-86 | loading only falls, outroStarted only rises, mounted only falls, the timer is never rescheduled, and an unmounted splash's state never changes |
| LayoutLoading.MountIsValid | frontend/src/components/layout/LayoutLoading.tsx:12-21 | the initial state satisfies the phase invariant (timer, exit tween, delay, children) |
| LayoutLoading.StepPreservesValid | frontend/src/components/layout/LayoutLoading.tsx:65-86 | every event preserves the phase invariant; particles imply an outro started while mounted |
| LayoutLoading.RunPreservesValid | frontend/src/components/layout/LayoutLoading.tsx:65-86 | the phase invariant holds after any sequence of events |
| LayoutLoading.TimerStartsOutro | frontend/src/components/layout/LayoutLoading.tsx:66-90 | the timer sets outroStarted whether or not the logo is attached; the exit tween starts exactly when it is; the particle burst sets up while the splash is shown |
| LayoutLoading.LoadingEndsOnlyAfterDelay | frontend/src/components/layout/LayoutLoading.tsx:71-81 | loading becomes false only when the pending 600 ms delay elapses while mounted |
| LayoutLoading.DelayOnlyFromExitTween | frontend/src/components/layout/LayoutLoading.tsx:77-80 | the delay is scheduled only by the exit tween's completion |
| LayoutLoading.StuckStaysLoading | frontend/src/components/layout/LayoutLoading.tsx:71-82 | a loading splash with no timer, tween or delay pending stays loading forever |
| LayoutLoading.LogoAbsentNeverFinishes | frontend/src/components/layout/LayoutLoading.tsx:71-82 | if the logo is missing when the timer fires, the splash is never replaced by the children; the logo renders under the same `loading` condition as the splash, so this is the guard's defensive case, not one the rendered component reaches |
| LayoutLoading.HappyPathShowsChildren | frontend/src/components/layout/LayoutLoading.tsx:66-86 | timer, exit-tween completion and delay, in that order, end with the children shown |
| LayoutLoading.UnmountReleases | frontend/src/components/layout/LayoutLoading.tsx:60-86 | unmount clears the timer, kills the heartbeat, and removes the particle canvas and disposes its renderer |
| LayoutLoading.ChildrenStayShown | frontend/src/components/layout/LayoutLoading.tsx:206-223 | once the children replace the splash, no later event brings the splash back |
| LayoutLoading.UnmountFreezesState | frontend/src/components/layout/LayoutLoading.tsx:60-86 | after unmount no event changes loading or outroStarted, and the timer, heartbeat and particle renderer stay released |
| LayoutLoading.FillPositions | frontend/src/components/layout/LayoutLoading.tsx:108-123 | the fill writes indices 0..3n-1 in order (i*3, i*3+1, i*3+2 for each i), each slot of the 3n buffer exactly once |
| LayoutLoading.FillSplashBuffer | frontend/src/components/layout/LayoutLoading.tsx:106-123 | with 800 particles the buffer has 2400 slots, each written exactly once |

## Findings

| source | as written | input that shows it | evidently intended | confidence | as-written member | corrected member |
|---|---|---|---|---|---|---|
| frontend/src/components/NavBar.tsx:131-150 | opening never cancels a running closing tween, whose completion sets display none unconditionally | after mount: open, close, reopen within the 0.4 s closing tween, and let that tween complete | an open menu always shows its dropdown | medium (relies on the tween engine's default of not overwriting, and on the effect hook keeping tweens across dependency changes); not executed | NavDropdown.AsWrittenHidesOpenMenu | NavDropdown.OpenMenuIsVisible |
| frontend/src/modules/HomePage.tsx:102-108 | the cleanup passes `xRef.current` to `killTweensOf` when it runs, and on unmount React has already detached those refs, so every call receives null | follow a nav link away from the home route after the effect has started the word rotation and the ornament spins | unmounting the hero stops the endless spins and the word rotation it started | medium (relies on React detaching element refs before it runs passive effect cleanups on unmount); not executed | HomePage.UnmountCleanupKillsNothing | HomePage.CapturedCleanupCoversEffect |

## Left out

- Tween interpolation, easing, durations as real time, delays, and staggers are not modelled. Tweens are abstract start and complete events.
- The entrance tweens are not modelled: the main bar's bounce, the logo's elastic entrance, and the hero image's slide values.
- The heartbeat's scale keyframes, the ornament spin angles, and the nav items' y and opacity values are not modelled. These are the animation engine's business.
- The logo hover listeners (NavBar.tsx:53-82) are left out. Their cleanup removes fresh closures rather than the registered listeners, so it removes nothing.
- The Three.js scene, camera, renderer, frame loop, canvas resize handler and GPU disposal are left out. They are foreign calls without visible semantics.
- The particles' floating-point spherical sampling is left out. Only the index pattern of the buffer fill is modelled.
- The network request and JSON parsing are left out. They are the `Response` parameter of `StrapiFetch.GetStrapiData`.
- The environment variables are left out. The base URL and path are parameters.
- The revalidation interval is left out. It belongs to the hosting framework.
- `frontend/src/app/layout.tsx` is not part of this model. It is pure framework composition.
- Image and link rendering and CSS classes are not modelled.
- Js.At0: strings are sequences of Unicode code points, while JavaScript strings are UTF-16 code units. For a string whose first character lies outside the Basic Multilingual Plane, JavaScript's `s[0]` is a lone surrogate and the model gives the whole character. The hero derivation never observes this, because reading `HeroImg` or `HeroText` from any string is undefined.
- Js.ToStr: numbers are integers, so JavaScript's float formatting, NaN and exponent notation are not modelled. Values are those a JSON body can hold, so callable `toString` or `valueOf` members and `Symbol.toPrimitive` are not modelled.
- NavBar.Step: each event is assumed to reach a re-rendered component. React's batching of two toggles inside one render, where both read the same stale `isOpen`, is not modelled.
- HomePage.RestartUsesNewWords: React reruns the effect when the `words` array's identity changes. Dafny values have no identity, so the model compares contents.
- HomePage.Cleanup: the model covers only the element targets. Two things the cleanup misses are not modelled: the hold steps tween a fresh empty object, and the repeating timeline object itself is never killed.
- LayoutLoading.Step: the heartbeat keeps running after the splash is replaced by the children, until unmount. The particle scene's own 1800 ms canvas removal is not modelled.
- NavDropdown.Step: the dropdown's y, height and opacity values, and the nav items' staggered entry and exit, are not modelled. Only the `display` value and the pending closing tweens are.
- Unmounting the navigation bar is not modelled. The root layout holds it, so once the splash gives way to the children it stays mounted. The hero component does unmount when a nav link leaves the home route. Its cleanup then sees detached refs and kills nothing; `HomePage.UnmountCleanupKillsNothing` states this, and the second row under "## Findings" records it.
- The `console.log` calls in both catch blocks of the home page are left out. They only log, and the model records that the error is caught.
- HomePage.Play: when writing a word throws, the span keeps its text. What the tween engine then does with the exception thrown from the completion callback, such as whether the timeline keeps playing, is not modelled.
- LayoutLoading.UnmountReleases: the particle frame loop is not modelled, and it outlives unmount. Each frame schedules the next and starts two tweens. The `cancelAnimationFrame` 1800 ms later targets a frame that has already run, and the cleanup never cancels a frame, so the loop keeps running after the renderer is disposed.

=== FILE: get_data.dfy ===
/**
  The content fetch wrapper: one GET to base URL + path, whose result is
  either the parsed JSON body or a fixed sentinel shape. The network and the
  JSON parser are abstracted into the `Response` parameter.
 */
module StrapiFetch {
  import opened Js

  /** What the platform's `fetch` and `response.json()` produced. */
  datatype Response =
    | Rejected(error: Value)                  // fetch() itself rejected
    | Http(status: int, body: JsonBody)       // a response arrived

  datatype JsonBody = Parsed(json: Value) | ParseError(error: Value)

  /** `response.ok`: the status lies in the success range. */
  predicate Ok(status: int)
  {
    200 <= status <= 299
  }

  /** The error object thrown for a non-success status. */
  function HttpError(status: int): Value
  {
    Obj(map["message" := Str("HTTP error! status: " + IntToString(status))])
  }

  /** `{ data: { attributes: {} }, link, error }`, returned instead of throwing. */
  function Sentinel(link: string, error: Value): Value
  {
    Obj(map["data" := Obj(map["attributes" := Obj(map[])]), "link" := Str(link), "error" := error])
  }

  /** Recognises the sentinel shape: exactly the fields data, link and error,
      with `data` holding an empty `attributes` object. */
  predicate IsSentinel(v: Value)
  {
    && v.Obj?
    && v.fields.Keys == {"data", "link", "error"}
    && v.fields["data"] == Obj(map["attributes" := Obj(map[])])
    && v.fields["link"].Str?
  }

  /** Successful exactly when a success status came with a parsable body. */
  predicate Succeeds(response: Response)
  {
    response.Http? && Ok(response.status) && response.body.Parsed?
  }

  /** getStrapiData: every failure, whatever its kind, becomes the sentinel
      carrying the requested URL; nothing is thrown to the caller. */
  function GetStrapiData(baseUrl: string, path: string, response: Response): (r: Value)
    ensures Succeeds(response) ==> r == response.body.json
    ensures !Succeeds(response) ==>
              && IsSentinel(r)
              && r.Obj? && "link" in r.fields && r.fields["link"] == Str(baseUrl + path)
    ensures response.Http? && !Ok(response.status) ==> r == Sentinel(baseUrl + path, HttpError(response.status))
  {
    var link := baseUrl + path;
    match response
    case Rejected(e) => Sentinel(link, e)
    case Http(status, body) =>
      if !Ok(status) then Sentinel(link, HttpError(status))
      else match body
        case Parsed(v) => v
        case ParseError(e) => Sentinel(link, e)
  }
}

=== FILE: hero_content.dfy ===
/**
  The home page's server-side derivation of hero content from the backend
  payload: the hero image URL and the list of rotating words, each computed
  inside its own try block that falls back to a default on any exception.
 */
module HeroContent {
  import opened Js
  import StrapiFetch

  /** The word list used unless the backend supplies a non-empty HeroText array. */
  const DefaultWords: seq<Value> := [Str(" "), Str("creative"), Str("beautiful"), Str("modern"), Str("reliable")]

  /** What the page passes to the hero component. */
  datatype Hero = Hero(heroImageUrl: Option<string>, words: seq<Value>)

  /** `strapiData.data[0]`: throws when the payload, or its `data` field, is
      null or undefined. */
  function FirstEntry(payload: Value): (r: Completion<Value>)
    ensures Nullish(payload) ==> r.Throw?
    ensures !Nullish(payload) ==> (r.Throw? <==> Nullish(Get(payload, Data).value))
  {
    match Get(payload, Data)
    case Throw => Throw
    case Normal(d) => At0(d)
  }

  /** `entry?.HeroImg?.url` */
  function ImageUrlOf(entry: Value): Value
  {
    OptGet(OptGet(entry, HeroImg), Url)
  }

  /** The first try block. When the optional chain is truthy, the assignment
      reads `data[0].HeroImg.url` once more without `?.` and converts it to a
      string for `+`, which throws when the conversion does. */
  function ImageAttempt(payload: Value, baseUrl: string): Completion<Option<string>>
  {
    match FirstEntry(payload)
    case Throw => Throw
    case Normal(entry) =>
      if !Truthy(ImageUrlOf(entry)) then Normal(None)
      else
        var img := Get(entry, HeroImg).value;
        match Get(img, Url)
        case Throw => Throw
        case Normal(url) =>
          match ToStr(url)
          case Throw => Throw
          case Normal(u) => Normal(Some(baseUrl + u))
  }

  /** `heroImageUrl` after the first try block: null unless the URL field is
      truthy and converts to a string, in which case it is the base URL
      followed by that string. */
  function HeroImageUrl(payload: Value, baseUrl: string): (r: Option<string>)
    ensures FirstEntry(payload).Throw? ==> r == None
    ensures FirstEntry(payload).Normal? ==>
              var url := ImageUrlOf(FirstEntry(payload).value);
              r == if Truthy(url) && !CoercionThrows(url) then Some(baseUrl + ToStr(url).value) else None
    ensures r.Some? ==> baseUrl <= r.value
  {
    match ImageAttempt(payload, baseUrl)
    case Throw => None
    case Normal(u) => u
  }

  /** `items.map((item) => item.Text)`: throws as soon as an item is null or
      undefined. */
  function TextsOf(items: seq<Value>): (r: Completion<seq<Value>>)
    ensures r.Normal? <==> forall i | 0 <= i < |items| :: !Nullish(items[i])
    ensures r.Normal? ==>
              && |r.value| == |items|
              && forall i | 0 <= i < |items| :: r.value[i] == OptGet(items[i], Text)
  {
    if |items| == 0 then Normal([])
    else
      match Get(items[0], Text)
      case Throw => Throw
      case Normal(t) =>
        match TextsOf(items[1..])
        case Throw => Throw
        case Normal(ts) => Normal([t] + ts)
  }

  /** A HeroText value the page accepts: a non-empty array. */
  predicate UsableHeroText(heroText: Value)
  {
    Truthy(heroText) && heroText.Arr? && |heroText.elems| > 0
  }

  /** The second try block: `Some(words)` when it replaces the default,
      `None` when it keeps it, `Throw` when an access throws. */
  function WordsAttempt(payload: Value): Completion<Option<seq<Value>>>
  {
    match FirstEntry(payload)
    case Throw => Throw
    case Normal(entry) =>
      var heroText := OptGet(entry, HeroText);
      if UsableHeroText(heroText) then
        match TextsOf(heroText.elems)
        case Throw => Throw
        case Normal(texts) => Normal(Some([Str(" ")] + texts))
      else Normal(None)
  }

  /** `words` after the second try block. */
  function Words(payload: Value): (r: seq<Value>)
    ensures |r| >= 1 && r[0] == Str(" ")
    ensures r != DefaultWords ==>
              && FirstEntry(payload).Normal?
              && UsableHeroText(OptGet(FirstEntry(payload).value, HeroText))
              && |r| == |OptGet(FirstEntry(payload).value, HeroText).elems| + 1
  {
    match WordsAttempt(payload)
    case Normal(Some(w)) => w
    case _ => DefaultWords
  }

  /** The whole derivation: never throws, on any payload. */
  function Derive(payload: Value, baseUrl: string): (h: Hero)
    ensures |h.words| >= 1 && h.words[0] == Str(" ")
    ensures h.heroImageUrl.Some? ==> baseUrl <= h.heroImageUrl.value
  {
    Hero(HeroImageUrl(payload, baseUrl), Words(payload))
  }

  // ---------------------------------------------------------------------------
  // Properties over arbitrary payloads

  /** The image URL is set exactly when the URL field is truthy; an empty
      string, like a missing field, leaves it null. */
  lemma ImageUrlFromStringField(payload: Value, baseUrl: string, entry: Value, s: string)
    requires FirstEntry(payload) == Normal(entry)
    requires ImageUrlOf(entry) == Str(s)
    ensures HeroImageUrl(payload, baseUrl) == if s != "" then Some(baseUrl + s) else None
  {
  }

  /** A truthy URL field whose conversion to a string throws, such as an
      object with its own `toString` field, leaves the URL null. */
  lemma UnconvertibleUrlKeepsNull(payload: Value, baseUrl: string, entry: Value)
    requires FirstEntry(payload) == Normal(entry)
    requires CoercionThrows(ImageUrlOf(entry))
    ensures HeroImageUrl(payload, baseUrl) == None
  {
  }

  /** When reading `data[0]` throws, both try blocks fall back. */
  lemma ThrowingAccessKeepsDefaults(payload: Value, baseUrl: string)
    requires Nullish(payload) || Nullish(Get(payload, Data).value)
    ensures Derive(payload, baseUrl) == Hero(None, DefaultWords)
  {
  }

  /** A non-empty HeroText array of non-null items gives " " followed by each
      item's Text, in order. */
  lemma WordsFromHeroText(payload: Value, entry: Value, items: seq<Value>)
    requires FirstEntry(payload) == Normal(entry)
    requires OptGet(entry, HeroText) == Arr(items)
    requires |items| > 0
    requires forall i | 0 <= i < |items| :: !Nullish(items[i])
    ensures |Words(payload)| == |items| + 1
    ensures Words(payload)[0] == Str(" ")
    ensures forall i | 0 <= i < |items| :: Words(payload)[i + 1] == OptGet(items[i], Text)
  {
    var texts := TextsOf(items);
    assert UsableHeroText(OptGet(entry, HeroText));
    assert WordsAttempt(payload) == Normal(Some([Str(" ")] + texts.value));
  }

  /** A missing, non-array or empty HeroText keeps the default words. */
  lemma WordsDefaultWithoutHeroText(payload: Value, entry: Value)
    requires FirstEntry(payload) == Normal(entry)
    requires !UsableHeroText(OptGet(entry, HeroText))
    ensures Words(payload) == DefaultWords
  {
  }

  /** A null or undefined HeroText item makes `item.Text` throw, and the
      catch keeps the default words. */
  lemma WordsDefaultWhenItemNullish(payload: Value, entry: Value, items: seq<Value>, k: nat)
    requires FirstEntry(payload) == Normal(entry)
    requires OptGet(entry, HeroText) == Arr(items)
    requires k < |items| && Nullish(items[k])
    ensures Words(payload) == DefaultWords
  {
  }

  /** Every failed fetch yields no image and the default words. */
  lemma FetchFailureYieldsDefaults(baseUrl: string, path: string, response: StrapiFetch.Response)
    requires !StrapiFetch.Succeeds(response)
    ensures Derive(StrapiFetch.GetStrapiData(baseUrl, path, response), baseUrl) == Hero(None, DefaultWords)
  {
  }

  // ---------------------------------------------------------------------------
  // Properties over well-formed backend records

  /** One entry of the backend's `data` array, as the content type defines it. */
  datatype HeroRecord = HeroRecord(url: string, texts: seq<string>)

  function EncodeText(t: string): Value
  {
    Obj(map["Text" := Str(t)])
  }

  function EncodeRecord(r: HeroRecord): Value
  {
    Obj(map[
      "HeroImg" := Obj(map["url" := Str(r.url)]),
      "HeroText" := Arr(EncodeTexts(r.texts))
    ])
  }

  /** The JSON body `{ data: [ { HeroImg: { url }, HeroText: [ { Text } ] } ] }`. */
  function Encode(records: seq<HeroRecord>): Value
  {
    Obj(map["data" := Arr(seq(|records|, i requires 0 <= i < |records| => EncodeRecord(records[i])))])
  }

  /** The hero content the page intends for a well-formed body: only the first
      record matters; its url is used when non-empty, its texts when there is
      at least one. */
  function Expected(records: seq<HeroRecord>, baseUrl: string): Hero
  {
    if |records| == 0 then Hero(None, DefaultWords)
    else
      var r := records[0];
      Hero(if r.url != "" then Some(baseUrl + r.url) else None,
           if |r.texts| > 0 then [Str(" ")] + seq(|r.texts|, i requires 0 <= i < |r.texts| => Str(r.texts[i]))
           else DefaultWords)
  }

  /** The page reads the first encoded record, or undefined when there is none. */
  lemma EncodedFirstEntry(records: seq<HeroRecord>)
    ensures FirstEntry(Encode(records)) == Normal(if |records| == 0 then Undefined else EncodeRecord(records[0]))
  {
  }

  lemma RecordImage(payload: Value, r: HeroRecord, baseUrl: string)
    requires FirstEntry(payload) == Normal(EncodeRecord(r))
    ensures HeroImageUrl(payload, baseUrl) == if r.url != "" then Some(baseUrl + r.url) else None
  {
    ImageUrlFromStringField(payload, baseUrl, EncodeRecord(r), r.url);
  }

  function EncodeTexts(texts: seq<string>): seq<Value>
  {
    seq(|texts|, i requires 0 <= i < |texts| => EncodeText(texts[i]))
  }

  lemma EncodedHeroText(r: HeroRecord)
    ensures OptGet(EncodeRecord(r), HeroText) == Arr(EncodeTexts(r.texts))
    ensures forall i | 0 <= i < |r.texts| :: OptGet(EncodeTexts(r.texts)[i], Text) == Str(r.texts[i])
  {
  }

  lemma RecordWords(payload: Value, r: HeroRecord)
    requires FirstEntry(payload) == Normal(EncodeRecord(r))
    ensures Words(payload) == if |r.texts| > 0
                              then [Str(" ")] + seq(|r.texts|, i requires 0 <= i < |r.texts| => Str(r.texts[i]))
                              else DefaultWords
  {
    var entry := EncodeRecord(r);
    var items := EncodeTexts(r.texts);
    EncodedHeroText(r);
    if |r.texts| > 0 {
      WordsFromHeroText(payload, entry, items);
      var w := Words(payload);
      var expected := [Str(" ")] + seq(|r.texts|, i requires 0 <= i < |r.texts| => Str(r.texts[i]));
      forall j | 1 <= j < |expected|
        ensures w[j] == expected[j]
      {
        assert w[(j - 1) + 1] == OptGet(items[j - 1], Text);
      }
      assert w == expected;
    } else {
      WordsDefaultWithoutHeroText(payload, entry);
    }
  }

  lemma DeriveFromBackendRecords(records: seq<HeroRecord>, baseUrl: string)
    ensures Derive(Encode(records), baseUrl) == Expected(records, baseUrl)
  {
    var payload := Encode(records);
    EncodedFirstEntry(records);
    if |records| == 0 {
      assert ImageUrlOf(Undefined) == Undefined;
      WordsDefaultWithoutHeroText(payload, Undefined);
    } else {
      RecordImage(payload, records[0], baseUrl);
      RecordWords(payload, records[0]);
    }
  }
}

=== FILE: home_page.dfy ===
/**
  The hero component on the client: the word-rotation timeline built from
  `words`, the text the rotating span shows as the timeline plays, the image
  source with its placeholder fallback, which animations the mount effect
  starts given the element refs present, and which targets its cleanup kills.
 */
module HomePage {
  import opened Js
  import HeroContent

  /** One step of the word-rotation timeline. The fade-out's completion
      callback writes `word` into the span. */
  datatype TextStep = FadeOut(word: Value) | FadeIn | Hold

  /** The three steps added for one word. */
  function Group(w: Value): seq<TextStep>
  {
    [FadeOut(w), FadeIn, Hold]
  }

  /** The timeline `words.forEach` builds: a group for every index from 1 on,
      in order; the word at index 0 gets none. */
  function Timeline(words: seq<Value>): (steps: seq<TextStep>)
    ensures |steps| == if |words| == 0 then 0 else 3 * (|words| - 1)
    ensures forall k | 1 <= k < |words| ::
              && steps[3 * (k - 1)] == FadeOut(words[k])
              && steps[3 * (k - 1) + 1] == FadeIn
              && steps[3 * (k - 1) + 2] == Hold
    decreases |words|
  {
    if |words| <= 1 then []
    else Timeline(words[..|words| - 1]) + Group(words[|words| - 1])
  }

  /** The words a sequence of steps writes into the span, in order. */
  function Writes(steps: seq<TextStep>): seq<Value>
  {
    if |steps| == 0 then []
    else (if steps[0].FadeOut? then [steps[0].word] else []) + Writes(steps[1..])
  }

  lemma {:induction false} WritesAppend(a: seq<TextStep>, b: seq<TextStep>)
    ensures Writes(a + b) == Writes(a) + Writes(b)
    decreases |a|
  {
    if |a| == 0 {
      assert a + b == b;
    } else {
      assert (a + b)[0] == a[0];
      assert (a + b)[1..] == a[1..] + b;
      WritesAppend(a[1..], b);
    }
  }

  /** A group writes its word once. */
  lemma WritesGroup(w: Value)
    ensures Writes(Group(w)) == [w]
  {
    var g := Group(w);
    assert g[1..][1..][1..] == [];
    assert Writes(g[1..][1..]) == [];
  }

  /** One cycle of the timeline writes every word after the first, each once
      and in order, and never the first. */
  lemma {:induction false} TimelineWritesTail(words: seq<Value>)
    requires |words| >= 1
    ensures Writes(Timeline(words)) == words[1..]
    decreases |words|
  {
    if |words| > 1 {
      var init := words[..|words| - 1];
      TimelineWritesTail(init);
      var last := words[|words| - 1];
      assert Timeline(words) == Timeline(init) + Group(last);
      WritesAppend(Timeline(init), Group(last));
      WritesGroup(last);
      assert init[1..] + [last] == words[1..];
    }
  }

  /** The span's text after a fade-out's callback assigns `w` to its
      `textContent`. When converting `w` throws, the assignment never happens
      and the span keeps its text. */
  function Write(text: string, w: Value): (r: string)
    ensures !CoercionThrows(w) ==> TextContent(w) == Normal(r)
    ensures CoercionThrows(w) ==> r == text
  {
    match TextContent(w)
    case Normal(s) => s
    case Throw => text
  }

  /** The span's text after the steps play. The write is skipped when the span
      ref is gone by the time the callback runs. The result is the initial text
      or the text of one of the words the steps write. */
  function Play(text: string, steps: seq<TextStep>, spanPresent: bool): (r: string)
    ensures r == text || exists w | w in Writes(steps) :: TextContent(w) == Normal(r)
    decreases |steps|
  {
    if |steps| == 0 then text
    else
      var next := if steps[0].FadeOut? && spanPresent then Write(text, steps[0].word) else text;
      assert Writes(steps) == (if steps[0].FadeOut? then [steps[0].word] else []) + Writes(steps[1..]);
      Play(next, steps[1..], spanPresent)
  }

  lemma {:induction false} PlayAppend(text: string, a: seq<TextStep>, b: seq<TextStep>, spanPresent: bool)
    ensures Play(text, a + b, spanPresent) == Play(Play(text, a, spanPresent), b, spanPresent)
    decreases |a|
  {
    if |a| == 0 {
      assert a + b == b;
    } else {
      assert (a + b)[0] == a[0];
      assert (a + b)[1..] == a[1..] + b;
      var next := if a[0].FadeOut? && spanPresent then Write(text, a[0].word) else text;
      PlayAppend(next, a[1..], b, spanPresent);
    }
  }

  /** Without the span, no step changes the text. */
  lemma {:induction false} PlayWithoutSpan(text: string, steps: seq<TextStep>)
    ensures Play(text, steps, false) == text
    decreases |steps|
  {
    if |steps| > 0 {
      PlayWithoutSpan(text, steps[1..]);
    }
  }

  /** Steps without a fade-out leave the text alone. */
  lemma {:induction false} PlayWithoutWrites(text: string, steps: seq<TextStep>, spanPresent: bool)
    requires forall i | 0 <= i < |steps| :: !steps[i].FadeOut?
    ensures Play(text, steps, spanPresent) == text
    decreases |steps|
  {
    if |steps| > 0 {
      PlayWithoutWrites(text, steps[1..], spanPresent);
    }
  }

  /** A lone fade-out performs its write. */
  lemma PlayFadeOut(text: string, w: Value)
    ensures Play(text, [FadeOut(w)], true) == Write(text, w)
  {
    assert [FadeOut(w)][1..] == [];
  }

  /** One group writes its word and then leaves the text alone. */
  lemma PlayGroup(text: string, w: Value)
    ensures Play(text, Group(w), true) == Write(text, w)
  {
    var g := Group(w);
    assert g[1..] == [FadeIn, Hold];
    PlayWithoutWrites(Write(text, w), g[1..], true);
  }

  /** The timeline of n words is that of the first n-1 followed by the last
      word's group, so the cycle ends with the last word's write. */
  lemma PlayTimelineSnoc(text: string, words: seq<Value>)
    requires |words| >= 2
    ensures Play(text, Timeline(words), true)
            == Write(Play(text, Timeline(words[..|words| - 1]), true), words[|words| - 1])
  {
    var init := words[..|words| - 1];
    PlayAppend(text, Timeline(init), Group(words[|words| - 1]), true);
    PlayGroup(Play(text, Timeline(init), true), words[|words| - 1]);
  }

  /** Right after the k-th fade-out, and through the fade-in and hold that
      follow it, the span shows what writing words[k] over the previous text
      gives: words[k] itself unless its conversion throws. */
  lemma ShownDuringGroup(text: string, words: seq<Value>, k: nat)
    requires 1 <= k < |words|
    ensures var before := Play(text, Timeline(words)[..3 * (k - 1)], true);
            && Play(text, Timeline(words)[..3 * (k - 1) + 1], true) == Write(before, words[k])
            && Play(text, Timeline(words)[..3 * k], true) == Write(before, words[k])
    ensures !CoercionThrows(words[k]) ==>
              TextContent(words[k]) == Normal(Play(text, Timeline(words)[..3 * k], true))
  {
    var steps := Timeline(words);
    var i := 3 * (k - 1);
    GroupAt(words, k);
    PrefixSplit(steps, i, i + 1);
    PrefixSplit(steps, i, i + 3);
    var before := Play(text, steps[..i], true);
    PlayFadeOut(before, words[k]);
    PlayGroup(before, words[k]);
    PlayAppend(text, steps[..i], steps[i..i + 1], true);
    PlayAppend(text, steps[..i], steps[i..i + 3], true);
  }

  /** The k-th group sits at offset 3(k-1) of the timeline. */
  lemma GroupAt(words: seq<Value>, k: nat)
    requires 1 <= k < |words|
    ensures var steps := Timeline(words);
            && 3 * k <= |steps|
            && steps[3 * (k - 1)..3 * (k - 1) + 1] == [FadeOut(words[k])]
            && steps[3 * (k - 1)..3 * (k - 1) + 3] == Group(words[k])
  {
    var steps := Timeline(words);
    var i := 3 * (k - 1);
    assert steps[i] == FadeOut(words[k]) && steps[i + 1] == FadeIn && steps[i + 2] == Hold;
  }

  lemma PrefixSplit<T>(s: seq<T>, i: nat, j: nat)
    requires i <= j <= |s|
    ensures s[..j] == s[..i] + s[i..j]
  {
  }

  /** Every cycle ends with the last word's write: the last word itself unless
      its conversion throws. */
  lemma CycleEndsOnLastWord(text: string, words: seq<Value>)
    requires |words| >= 2
    ensures Play(text, Timeline(words), true)
            == Write(Play(text, Timeline(words[..|words| - 1]), true), words[|words| - 1])
    ensures !CoercionThrows(words[|words| - 1]) ==>
              TextContent(words[|words| - 1]) == Normal(Play(text, Timeline(words), true))
    ensures Play(Play(text, Timeline(words), true), Timeline(words), true) == Play(text, Timeline(words), true)
  {
    PlayTimelineSnoc(text, words);
    RepeatedCycleKeepsText(text, words);
  }

  /** The timeline repeats forever; a second cycle ends on the same text as the
      first, whatever the words are. */
  lemma {:induction false} RepeatedCycleKeepsText(text: string, words: seq<Value>)
    ensures Play(Play(text, Timeline(words), true), Timeline(words), true) == Play(text, Timeline(words), true)
    decreases |words|
  {
    if |words| >= 2 {
      var init := words[..|words| - 1];
      var last := words[|words| - 1];
      var once := Play(text, Timeline(words), true);
      PlayTimelineSnoc(text, words);
      PlayTimelineSnoc(once, words);
      if CoercionThrows(last) {
        RepeatedCycleKeepsText(text, init);
      }
    }
  }

  /** A single word gives an empty timeline: the span keeps its initial text. */
  lemma SingleWordNeverRotates(text: string, words: seq<Value>)
    requires |words| == 1
    ensures Timeline(words) == []
    ensures Play(text, Timeline(words), true) == text
  {
  }

  // ---------------------------------------------------------------------------
  // Image source

  datatype ImageSrc = Remote(url: string) | Placeholder

  /** `heroImageUrl || PlaceholderImg` */
  function ImageSource(heroImageUrl: Option<string>): (r: ImageSrc)
    ensures r.Remote? <==> heroImageUrl.Some? && heroImageUrl.value != ""
    ensures r.Remote? ==> r.url == heroImageUrl.value
  {
    match heroImageUrl
    case Some(u) => if u != "" then Remote(u) else Placeholder
    case None => Placeholder
  }

  /** With a non-empty base URL, the page shows the backend image exactly when
      the payload's URL field is truthy and converts to a string, and the
      placeholder otherwise. */
  lemma RemoteImageExactlyWhenUrlTruthy(payload: Value, baseUrl: string)
    requires baseUrl != ""
    ensures var entry := HeroContent.FirstEntry(payload);
            ImageSource(HeroContent.HeroImageUrl(payload, baseUrl)).Remote?
            <==> entry.Normal? && Truthy(HeroContent.ImageUrlOf(entry.value))
                 && !CoercionThrows(HeroContent.ImageUrlOf(entry.value))
  {
  }

  // ---------------------------------------------------------------------------
  // The mount effect and its cleanup

  /** Elements the effect can animate, and the container it checks but never animates. */
  datatype Target = OrnamentLight | OrnamentDark | PlaceholderImg | StunningText | PlaceholderContainer

  /** Which element refs are attached when the effect or its cleanup runs. */
  datatype Refs = Refs(ornamentLight: bool, ornamentDark: bool, image: bool, container: bool, span: bool)

  predicate Present(refs: Refs, t: Target)
  {
    match t
    case OrnamentLight => refs.ornamentLight
    case OrnamentDark => refs.ornamentDark
    case PlaceholderImg => refs.image
    case StunningText => refs.span
    case PlaceholderContainer => refs.container
  }

  datatype Animation =
    | Spin(target: Target)                           // endless 360 degree rotation
    | SlideUp(target: Target)                        // set below, then tween up into view
    | Rotate(target: Target, steps: seq<TextStep>)   // endless word-rotation timeline

  /** The animations the effect starts: both ornaments spin only if both refs
      are attached, the image slides only if it and its container are
      attached, and the word rotation starts only if the span is attached. */
  function Effect(refs: Refs, words: seq<Value>): (anims: seq<Animation>)
    ensures (Spin(OrnamentLight) in anims) <==> refs.ornamentLight && refs.ornamentDark
    ensures (Spin(OrnamentDark) in anims) <==> refs.ornamentLight && refs.ornamentDark
    ensures (SlideUp(PlaceholderImg) in anims) <==> refs.image && refs.container
    ensures (Rotate(StunningText, Timeline(words)) in anims) <==> refs.span
    ensures forall a | a in anims :: Present(refs, a.target) && a.target != PlaceholderContainer
    ensures forall a | a in anims && a.Rotate? :: a.steps == Timeline(words)
    ensures forall a | a in anims ::
              a in [Spin(OrnamentLight), Spin(OrnamentDark), SlideUp(PlaceholderImg), Rotate(StunningText, Timeline(words))]
  {
    var spins := if refs.ornamentLight && refs.ornamentDark then [Spin(OrnamentLight), Spin(OrnamentDark)] else [];
    var slide := if refs.image && refs.container then [SlideUp(PlaceholderImg)] else [];
    var rotate := if refs.span then [Rotate(StunningText, Timeline(words))] else [];
    assert forall a | a in spins :: a.Spin? && Present(refs, a.target) && a.target != PlaceholderContainer;
    assert forall a | a in slide :: a == SlideUp(PlaceholderImg) && Present(refs, a.target);
    assert forall a | a in rotate :: a == Rotate(StunningText, Timeline(words)) && Present(refs, a.target);
    assert forall a :: a in spins + slide + rotate <==> a in spins || a in slide || a in rotate;
    spins + slide + rotate
  }

  /** The cleanup kills the tweens of the four animated elements; a ref that
      is no longer attached passes null, which kills nothing. */
  function Cleanup(refs: Refs): (killed: set<Target>)
    ensures killed <= {OrnamentLight, OrnamentDark, PlaceholderImg, StunningText}
    ensures forall t | t in killed :: Present(refs, t)
    ensures forall t | t != PlaceholderContainer && Present(refs, t) :: t in killed
  {
    set t | t in {OrnamentLight, OrnamentDark, PlaceholderImg, StunningText} && Present(refs, t)
  }

  /** With the same refs attached at cleanup as at setup, as when `words`
      changes and the effect reruns, the cleanup kills every element the
      effect animated. */
  lemma CleanupCoversEffect(refs: Refs, words: seq<Value>)
    ensures forall a | a in Effect(refs, words) :: a.target in Cleanup(refs)
  {
  }

  /** When `words` changes, the previous run's cleanup first kills the span's
      tweens, which include the old rotation's text steps, and the effect then
      runs again from scratch: the new rotation depends only on the new words. */
  lemma RestartUsesNewWords(refs: Refs, before: seq<Value>, after: seq<Value>)
    requires refs.span
    ensures Rotate(StunningText, Timeline(before)) in Effect(refs, before)
    ensures StunningText in Cleanup(refs)
    ensures Rotate(StunningText, Timeline(after)) in Effect(refs, after)
    ensures Timeline(before) != Timeline(after) ==> Rotate(StunningText, Timeline(before)) !in Effect(refs, after)
  {
  }

  // ---------------------------------------------------------------------------
  // The cleanup on unmount

  /** The refs as the cleanup sees them on unmount: React detaches element refs
      while committing the removal, before it runs the effect cleanups. */
  const Detached: Refs := Refs(false, false, false, false, false)

  /** Which elements the cleanup acts on: the refs it reads when it runs, as
      written, or the elements captured when the effect ran. */
  datatype CleanupPolicy = ReadRefsAtCleanup | CapturedAtSetup

  function RunCleanup(policy: CleanupPolicy, setup: Refs, atCleanup: Refs): (killed: set<Target>)
    ensures forall t :: t in killed <==>
              t != PlaceholderContainer && Present(if policy.ReadRefsAtCleanup? then atCleanup else setup, t)
  {
    match policy
    case ReadRefsAtCleanup => Cleanup(atCleanup)
    case CapturedAtSetup => Cleanup(setup)
  }

  /** As written, the cleanup on unmount kills nothing, while the effect had
      started the endless word rotation: it outlives the component. */
  lemma UnmountCleanupKillsNothing(setup: Refs, words: seq<Value>)
    requires setup.span
    ensures Rotate(StunningText, Timeline(words)) in Effect(setup, words)
    ensures RunCleanup(ReadRefsAtCleanup, setup, Detached) == {}
    ensures exists a | a in Effect(setup, words) :: a.target !in RunCleanup(ReadRefsAtCleanup, setup, Detached)
  {
    assert Rotate(StunningText, Timeline(words)) in Effect(setup, words);
  }

  /** A cleanup over the elements captured at setup kills everything the
      effect started, whatever refs are attached when it runs, unmount
      included. */
  lemma CapturedCleanupCoversEffect(setup: Refs, atCleanup: Refs, words: seq<Value>)
    ensures forall a | a in Effect(setup, words) :: a.target in RunCleanup(CapturedAtSetup, setup, atCleanup)
  {
  }
}

=== FILE: js.dfy ===
/**
  The slice of JavaScript value semantics the portfolio front end relies on:
  untyped values as they come out of `response.json()`, truthiness, property
  reads with and without optional chaining, and string coercion.
  Numbers are modelled as integers.
 */
module Js {

  datatype Option<T> = None | Some(value: T)

  /** A JavaScript value as the backend payload can hold it. */
  datatype Value =
    | Undefined
    | Null
    | Bool(b: bool)
    | Num(n: int)
    | Str(s: string)
    | Arr(elems: seq<Value>)
    | Obj(fields: map<string, Value>)

  /** How an expression finished: with a value, or by throwing (a TypeError here). */
  datatype Completion<T> = Normal(value: T) | Throw

  /** The property names the hero code reads. None of them is defined on the
      prototype of a string, number, boolean or array, so reading one from a
      non-object yields `undefined`. */
  datatype Prop = Data | HeroImg | Url | HeroText | Text

  function PropName(p: Prop): string
  {
    match p
    case Data => "data"
    case HeroImg => "HeroImg"
    case Url => "url"
    case HeroText => "HeroText"
    case Text => "Text"
  }

  predicate Nullish(v: Value)
  {
    v.Undefined? || v.Null?
  }

  /** ECMAScript ToBoolean. */
  predicate Truthy(v: Value)
  {
    match v
    case Undefined => false
    case Null => false
    case Bool(b) => b
    case Num(n) => n != 0
    case Str(s) => s != ""
    case Arr(_) => true
    case Obj(_) => true
  }

  /** `v.p`: throws on null and undefined, reads an own field of an object,
      and is `undefined` on every other value. */
  function Get(v: Value, p: Prop): (r: Completion<Value>)
    ensures r.Throw? <==> Nullish(v)
    ensures v.Obj? && PropName(p) in v.fields ==> r == Normal(v.fields[PropName(p)])
    ensures v.Obj? && PropName(p) !in v.fields ==> r == Normal(Undefined)
    ensures !v.Obj? && !Nullish(v) ==> r == Normal(Undefined)
  {
    match v
    case Undefined => Throw
    case Null => Throw
    case Obj(f) => Normal(if PropName(p) in f then f[PropName(p)] else Undefined)
    case _ => Normal(Undefined)
  }

  /** `v[0]`: the first element of an array, the first character of a string,
      the field "0" of an object; throws on null and undefined. */
  function At0(v: Value): (r: Completion<Value>)
    ensures r.Throw? <==> Nullish(v)
    ensures v.Arr? && |v.elems| > 0 ==> r == Normal(v.elems[0])
    ensures v.Arr? && |v.elems| == 0 ==> r == Normal(Undefined)
    ensures v.Str? ==> r == Normal(if |v.s| > 0 then Str([v.s[0]]) else Undefined)
    ensures v.Obj? ==> r == Normal(if "0" in v.fields then v.fields["0"] else Undefined)
    ensures v.Bool? || v.Num? ==> r == Normal(Undefined)
  {
    match v
    case Undefined => Throw
    case Null => Throw
    case Arr(e) => Normal(if |e| > 0 then e[0] else Undefined)
    case Str(s) => Normal(if |s| > 0 then Str([s[0]]) else Undefined)
    case Obj(f) => Normal(if "0" in f then f["0"] else Undefined)
    case _ => Normal(Undefined)
  }

  /** `v?.p`: short-circuits to `undefined` on null and undefined, so it never throws. */
  function OptGet(v: Value, p: Prop): (r: Value)
    ensures Nullish(v) ==> r == Undefined
    ensures !Nullish(v) ==> Get(v, p) == Normal(r)
  {
    if Nullish(v) then Undefined else Get(v, p).value
  }

  function DigitChar(d: nat): char
    requires d < 10
  {
    "0123456789"[d]
  }

  /** Decimal digits of a natural number, without leading zeros. */
  function NatToString(n: nat): (r: string)
    ensures |r| >= 1
    decreases n
  {
    if n < 10 then [DigitChar(n)] else NatToString(n / 10) + [DigitChar(n % 10)]
  }

  function IntToString(n: int): (r: string)
    ensures |r| >= 1
  {
    if n < 0 then "-" + NatToString(-n) else NatToString(n)
  }

  /** Joins strings with a separator, as `Array.prototype.join` does. */
  function Join(parts: seq<string>, sep: string): string
  {
    if |parts| == 0 then ""
    else if |parts| == 1 then parts[0]
    else Join(parts[..|parts| - 1], sep) + sep + parts[|parts| - 1]
  }

  /** Whether ECMAScript ToString throws on a value that came out of a JSON
      body. Such an object has no callable own members, so an own `toString`
      field shadows the inherited method while `valueOf` yields the object
      itself: no primitive is found and a TypeError is thrown. An array's
      conversion joins its elements, so it throws when an element's does. */
  predicate CoercionThrows(v: Value)
    decreases v
  {
    match v
    case Obj(f) => "toString" in f
    case Arr(e) => exists i | 0 <= i < |e| :: CoercionThrows(e[i])
    case _ => false
  }

  /** ECMAScript ToString, as `+` applies it to the right operand of a string
      concatenation and the `textContent` setter applies it to a non-null
      value. An array joins its elements with "," and renders null and
      undefined elements as empty; a plain object is "[object Object]". */
  function ToStr(v: Value): (r: Completion<string>)
    ensures r.Throw? <==> CoercionThrows(v)
    ensures v.Str? ==> r == Normal(v.s)
    ensures v.Num? ==> r == Normal(IntToString(v.n))
    ensures v.Obj? && !CoercionThrows(v) ==> r == Normal("[object Object]")
    ensures v.Arr? && |v.elems| == 0 ==> r == Normal("")
    decreases v
  {
    match v
    case Undefined => Normal("undefined")
    case Null => Normal("null")
    case Bool(b) => Normal(if b then "true" else "false")
    case Num(n) => Normal(IntToString(n))
    case Str(s) => Normal(s)
    case Arr(e) =>
      var parts := seq(|e|, i requires 0 <= i < |e| => if Nullish(e[i]) then Normal("") else ToStr(e[i]));
      assert forall i | 0 <= i < |e| :: parts[i].Throw? <==> CoercionThrows(e[i]);
      if exists i | 0 <= i < |e| :: parts[i].Throw? then Throw
      else Normal(Join(seq(|e|, i requires 0 <= i < |e| && parts[i].Normal? => parts[i].value), ","))
    case Obj(f) => if "toString" in f then Throw else Normal("[object Object]")
  }

  /** An array of strings converts to the strings joined with ",", the way a
      string array is rendered when concatenated. */
  lemma StringArrayJoins(ss: seq<string>)
    ensures ToStr(Arr(seq(|ss|, i requires 0 <= i < |ss| => Str(ss[i])))) == Normal(Join(ss, ","))
  {
    var e := seq(|ss|, i requires 0 <= i < |ss| => Str(ss[i]));
    var parts := seq(|e|, i requires 0 <= i < |e| => if Nullish(e[i]) then Normal("") else ToStr(e[i]));
    assert forall i | 0 <= i < |e| :: parts[i] == Normal(ss[i]);
    assert !(exists i | 0 <= i < |e| :: parts[i].Throw?);
    var strs := seq(|e|, i requires 0 <= i < |e| && parts[i].Normal? => parts[i].value);
    assert strs == ss;
    assert ToStr(Arr(e)) == Normal(Join(strs, ","));
  }

  /** The string a DOM node shows after `node.textContent = v`: the setter takes
      a nullable string, so null and undefined clear the node; any other value
      is converted, and the assignment throws when the conversion does. */
  function TextContent(v: Value): (r: Completion<string>)
    ensures v.Str? ==> r == Normal(v.s)
    ensures Nullish(v) ==> r == Normal("")
    ensures r.Throw? <==> CoercionThrows(v)
  {
    if Nullish(v) then Normal("") else ToStr(v)
  }
}

=== FILE: layout_loading.dfy ===
/**
  The splash screen that wraps every page: a logo with an entrance tween and
  an endless heartbeat, a 2000 ms timer that starts the outro (logo exit tween
  and particle burst), and a 600 ms delay after the exit tween completes before
  the page's children replace the splash. Time and the tween engine are
  abstract events; the particle buffer fill is modelled by the indices it
  writes.
 */
module LayoutLoading {

  const OutroDelayMs: nat := 2000
  const CompletionDelayMs: nat := 600
  const ParticleCount: nat := 800

  /** The component's state and the pending asynchronous work it owns. */
  datatype Splash = Splash(
    loading: bool,        // React state: the splash is shown
    outroStarted: bool,   // React state: the outro has begun
    timerPending: bool,   // the 2000 ms timeout is scheduled
    exitTween: bool,      // the logo exit tween is running
    delayPending: bool,   // the 600 ms completion timeout is scheduled
    heartbeat: bool,      // the heartbeat timeline is alive
    particles: bool,      // the particle renderer is set up and not yet disposed
    mounted: bool)

  /** The state once the mount effects have run: the heartbeat exists only if
      the logo element was attached, the outro timer always. */
  function Mount(logoPresent: bool): (s: Splash)
    ensures s.loading && !s.outroStarted
    ensures s.timerPending && s.heartbeat == logoPresent
  {
    Splash(true, false, true, false, false, logoPresent, false, true)
  }

  /** Timer expiry, `OutroDelayMs` after mount (with whether the logo element
      is attached at that moment); exit tween completion; expiry of the
      completion delay, `CompletionDelayMs` after that completion; and unmount.
      The logo renders under the same `loading` condition as the particle
      container, so while the timer is pending it is always attached: an
      absent logo is the guard's defensive case, which the component as
      rendered never reaches. */
  datatype Event = TimerFired(logoPresent: bool) | ExitTweenComplete | DelayElapsed | Unmount

  /** The particle effect sets up only once the outro has started and its
      container element is attached. */
  predicate ParticlesStart(outroStarted: bool, containerPresent: bool)
  {
    outroStarted && containerPresent
  }

  datatype View = SplashScreen | Children

  function Render(s: Splash): (v: View)
    ensures v.Children? <==> !s.loading
  {
    if s.loading then SplashScreen else Children
  }

  /** One event. The particle container is attached exactly while the splash
      renders. Unmount clears the timer, kills the heartbeat, and removes the
      particle canvas and disposes its renderer, but cancels neither the exit
      tween nor the completion delay; state updates after unmount are ignored. */
  function Step(s: Splash, e: Event): (r: Splash)
    ensures r.loading ==> s.loading
    ensures s.outroStarted ==> r.outroStarted
    ensures r.mounted ==> s.mounted
    ensures r.timerPending ==> s.timerPending
    ensures !s.mounted && !s.timerPending ==> r.loading == s.loading && r.outroStarted == s.outroStarted
  {
    match e
    case TimerFired(logoPresent) =>
      if !s.timerPending then s
      else s.(timerPending := false,
              outroStarted := true,
              exitTween := logoPresent,
              particles := s.particles || (!s.outroStarted && ParticlesStart(true, s.loading)))
    case ExitTweenComplete =>
      if !s.exitTween then s
      else s.(exitTween := false, delayPending := true)
    case DelayElapsed =>
      if !s.delayPending then s
      else s.(delayPending := false, loading := s.loading && !s.mounted)
    case Unmount =>
      if !s.mounted then s
      else s.(mounted := false, timerPending := false, heartbeat := false, particles := false)
  }

  function Run(s: Splash, es: seq<Event>): Splash
    decreases |es|
  {
    if |es| == 0 then s else Run(Step(s, es[0]), es[1..])
  }

  /** The phases follow one another: timer, exit tween, delay, children. */
  predicate Valid(s: Splash)
  {
    && (s.timerPending ==> s.mounted && !s.outroStarted && !s.exitTween && !s.delayPending && s.loading)
    && (s.exitTween || s.delayPending ==> s.outroStarted)
    && !(s.exitTween && s.delayPending)
    && (!s.loading ==> s.outroStarted && !s.timerPending && !s.exitTween && !s.delayPending)
    && (!s.outroStarted ==> s.timerPending || !s.mounted)
    && (s.particles ==> s.outroStarted && s.mounted)
    && (!s.mounted ==> !s.timerPending && !s.heartbeat && !s.particles)
  }

  lemma MountIsValid(logoPresent: bool)
    ensures Valid(Mount(logoPresent))
  {
  }

  lemma StepPreservesValid(s: Splash, e: Event)
    requires Valid(s)
    ensures Valid(Step(s, e))
  {
  }

  lemma {:induction false} RunPreservesValid(s: Splash, es: seq<Event>)
    requires Valid(s)
    ensures Valid(Run(s, es))
    decreases |es|
  {
    if |es| > 0 {
      StepPreservesValid(s, es[0]);
      RunPreservesValid(Step(s, es[0]), es[1..]);
    }
  }

  /** The timer starts the outro whether or not the logo is there, and the
      burst sets up while the splash is still shown. */
  lemma TimerStartsOutro(s: Splash, logoPresent: bool)
    requires Valid(s) && s.timerPending
    ensures Step(s, TimerFired(logoPresent)).outroStarted
    ensures Step(s, TimerFired(logoPresent)).exitTween == logoPresent
    ensures Step(s, TimerFired(logoPresent)).particles
    ensures Step(s, TimerFired(logoPresent)).loading
  {
  }

  /** Loading ends only when the completion delay expires while mounted, and
      that delay is only ever scheduled by the exit tween's completion. */
  lemma LoadingEndsOnlyAfterDelay(s: Splash, e: Event)
    requires s.loading && !Step(s, e).loading
    ensures e.DelayElapsed? && s.delayPending && s.mounted
  {
  }

  lemma DelayOnlyFromExitTween(s: Splash, e: Event)
    requires !s.delayPending && Step(s, e).delayPending
    ensures e.ExitTweenComplete? && s.exitTween
  {
  }

  /** A splash that no pending work can end. */
  predicate Stuck(s: Splash)
  {
    s.loading && !s.timerPending && !s.exitTween && !s.delayPending
  }

  lemma {:induction false} StuckStaysLoading(s: Splash, es: seq<Event>)
    requires Stuck(s)
    ensures Stuck(Run(s, es))
    decreases |es|
  {
    if |es| > 0 {
      StuckStaysLoading(Step(s, es[0]), es[1..]);
    }
  }

  /** If the logo is missing when the timer fires, no exit tween starts and
      the splash is never replaced by the children. */
  lemma LogoAbsentNeverFinishes(s: Splash, es: seq<Event>)
    requires Valid(s) && s.timerPending
    ensures Run(Step(s, TimerFired(false)), es).loading
    ensures Render(Run(Step(s, TimerFired(false)), es)) == SplashScreen
  {
    StuckStaysLoading(Step(s, TimerFired(false)), es);
  }

  /** The intended sequence shows the children. */
  lemma HappyPathShowsChildren(logoAtMount: bool)
    ensures var s := Run(Mount(logoAtMount), [TimerFired(true), ExitTweenComplete, DelayElapsed]);
            && Render(s) == Children && s.outroStarted
  {
  }

  /** Once the children replace the splash, no later event brings it back. */
  lemma {:induction false} ChildrenStayShown(s: Splash, es: seq<Event>)
    requires Render(s) == Children
    ensures Render(Run(s, es)) == Children
    decreases |es|
  {
    if |es| > 0 {
      ChildrenStayShown(Step(s, es[0]), es[1..]);
    }
  }

  /** After unmount nothing that fires changes the React state, the timer can
      no longer fire, and the heartbeat and particle renderer stay released. */
  lemma {:induction false} UnmountFreezesState(s: Splash, es: seq<Event>)
    requires !s.mounted && !s.timerPending && !s.heartbeat && !s.particles
    ensures var t := Run(s, es);
            && t.loading == s.loading && t.outroStarted == s.outroStarted
            && !t.timerPending && !t.heartbeat && !t.particles && !t.mounted
    decreases |es|
  {
    if |es| > 0 {
      UnmountFreezesState(Step(s, es[0]), es[1..]);
    }
  }

  lemma UnmountReleases(s: Splash)
    requires s.mounted
    ensures var t := Step(s, Unmount);
            !t.mounted && !t.timerPending && !t.heartbeat && !t.particles
  {
  }

  // ---------------------------------------------------------------------------
  // The particle position buffer

  /** The index pattern of the buffer fill: for each particle i, the writes
      to i*3, i*3+1 and i*3+2, in that order. Returns the indices written, in
      order, and how many times each slot of a 3*count buffer was written. */
  method FillPositions(count: nat) returns (writes: seq<nat>, hits: seq<nat>)
    ensures |hits| == 3 * count
    ensures forall j | 0 <= j < |hits| :: hits[j] == 1
    ensures |writes| == 3 * count
    ensures forall k | 0 <= k < |writes| :: writes[k] == k
  {
    writes := [];
    hits := seq(3 * count, _ => 0);
    var i := 0;
    while i < count
      invariant 0 <= i <= count
      invariant |hits| == 3 * count
      invariant forall j | 0 <= j < |hits| :: hits[j] == if j < 3 * i then 1 else 0
      invariant |writes| == 3 * i
      invariant forall k | 0 <= k < |writes| :: writes[k] == k
    {
      var idx := i * 3;
      hits := hits[idx := hits[idx] + 1];
      hits := hits[idx + 1 := hits[idx + 1] + 1];
      hits := hits[idx + 2 := hits[idx + 2] + 1];
      writes := writes + [idx, idx + 1, idx + 2];
      i := i + 1;
    }
  }

  /** The splash's buffer: 800 particles, 2400 slots, every one written once. */
  method FillSplashBuffer() returns (writes: seq<nat>, hits: seq<nat>)
    ensures |hits| == 2400
    ensures forall j | 0 <= j < 2400 :: hits[j] == 1
    ensures writes == seq(2400, k => k)
  {
    writes, hits := FillPositions(ParticleCount);
  }
}

=== FILE: nav_bar.dfy ===
/**
  The navigation bar's menu state: whether the mobile dropdown is open and
  whether the component has mounted, driven by the toggle button, the
  dropdown's links, viewport resizes and the mount effect. Also the array of
  dropdown element handles filled by index-based ref callbacks, and the
  rotation target of the menu icon.
 */
module NavBar {
  import opened Js

  /** At or above this viewport width the dropdown closes itself. */
  const DesktopBreakpoint: int := 1024

  /** A dropdown link; `title` is the source's `label` field, renamed because
      `label` is a reserved word here. */
  datatype NavItem = NavItem(path: string, title: string)

  const NavItems: seq<NavItem> := [
    NavItem("/", "HOME"),
    NavItem("/about", "About"),
    NavItem("/project", "Project"),
    NavItem("/contact", "Contact")
  ]

  /** The Resume entry's slot in the handle array, right after the links. */
  const ResumeSlot: nat := |NavItems|

  datatype Menu = Menu(isOpen: bool, mounted: bool)

  const Initial: Menu := Menu(false, false)

  /** Events that reach the menu state. The links and the resize listener
      exist only once mounted, so before that `LinkClick` and `Resize` change
      nothing. */
  datatype Event = Mount | Toggle | LinkClick | Resize(width: int)

  /** Whether the dropdown element is in the tree at all. */
  predicate DropdownRendered(m: Menu)
  {
    m.mounted
  }

  function Step(m: Menu, e: Event): (r: Menu)
    ensures r.mounted == (m.mounted || e.Mount?)
    ensures e.Toggle? ==> r.isOpen != m.isOpen
    ensures e.LinkClick? && m.mounted ==> !r.isOpen
    ensures r.isOpen && !m.isOpen ==> e.Toggle?
    ensures e.Resize? ==> (r.isOpen <==> m.isOpen && !(m.mounted && e.width >= DesktopBreakpoint))
    ensures e.Mount? ==> r.isOpen == m.isOpen
    ensures !m.mounted && (e.LinkClick? || e.Resize?) ==> r == m
  {
    match e
    case Mount => m.(mounted := true)
    case Toggle => m.(isOpen := !m.isOpen)
    case LinkClick => if m.mounted then m.(isOpen := false) else m
    case Resize(w) => if m.mounted && w >= DesktopBreakpoint then m.(isOpen := false) else m
  }

  function Run(m: Menu, es: seq<Event>): Menu
    decreases |es|
  {
    if |es| == 0 then m else Run(Step(m, es[0]), es[1..])
  }

  lemma ToggleTwiceRestores(m: Menu)
    ensures Step(Step(m, Toggle), Toggle) == m
  {
  }

  /** A second resize to the same width changes nothing. */
  lemma ResizeIdempotent(m: Menu, w: int)
    ensures Step(Step(m, Resize(w)), Resize(w)) == Step(m, Resize(w))
  {
  }

  /** Any non-empty burst of resizes at a desktop width closes a mounted menu
      and leaves everything else as it was; it never reopens it. */
  lemma {:induction false} DesktopResizesClose(m: Menu, es: seq<Event>)
    requires m.mounted && |es| > 0
    requires forall i | 0 <= i < |es| :: es[i].Resize? && es[i].width >= DesktopBreakpoint
    ensures Run(m, es) == m.(isOpen := false)
    decreases |es|
  {
    if |es| > 1 {
      DesktopResizesClose(Step(m, es[0]), es[1..]);
    }
  }

  /** Once mounted, the menu stays mounted. */
  lemma {:induction false} MountedIsStable(m: Menu, es: seq<Event>)
    requires m.mounted
    ensures Run(m, es).mounted
    decreases |es|
  {
    if |es| > 0 {
      MountedIsStable(Step(m, es[0]), es[1..]);
    }
  }

  /** From the initial state the component is mounted, and the dropdown
      rendered, exactly when a mount event has happened. */
  lemma {:induction false} MountedIffMountEvent(m: Menu, es: seq<Event>)
    requires !m.mounted
    ensures DropdownRendered(Run(m, es)) <==> Mount in es
    decreases |es|
  {
    if |es| > 0 {
      var m' := Step(m, es[0]);
      assert es == [es[0]] + es[1..];
      if es[0].Mount? {
        MountedIsStable(m', es[1..]);
      } else {
        MountedIffMountEvent(m', es[1..]);
      }
    }
  }

  /** Only a toggle can open the menu: from a closed menu, a run without
      toggles leaves it closed. */
  lemma {:induction false} OnlyToggleOpens(m: Menu, es: seq<Event>)
    requires !m.isOpen
    requires Toggle !in es
    ensures !Run(m, es).isOpen
    decreases |es|
  {
    if |es| > 0 {
      assert es[0] in es;
      assert forall e | e in es[1..] :: e in es;
      OnlyToggleOpens(Step(m, es[0]), es[1..]);
    }
  }

  // ---------------------------------------------------------------------------
  // The dropdown's element handles

  /** `navItemsRef.current[index] = el`. Writing past the end grows the array
      and leaves the skipped positions empty (JavaScript holes). */
  function SetSlot<T>(slots: seq<Option<T>>, el: Option<T>, index: nat): (r: seq<Option<T>>)
    ensures |r| == if index < |slots| then |slots| else index + 1
    ensures r[index] == el
    ensures forall j | 0 <= j < |r| && j != index :: r[j] == if j < |slots| then slots[j] else None
  {
    if index < |slots| then slots[index := el]
    else slots + seq(index - |slots|, _ => None) + [el]
  }

  /** The ref callbacks as React calls them while committing the dropdown:
      the links at their indices, then Resume at `ResumeSlot`. */
  function AttachFrom<T>(slots: seq<Option<T>>, els: seq<T>, from: nat): seq<Option<T>>
    requires |els| == ResumeSlot + 1 && from <= |els|
    decreases |els| - from
  {
    if from == |els| then slots else AttachFrom(SetSlot(slots, Some(els[from]), from), els, from + 1)
  }

  lemma {:induction false} AttachFromFills<T>(slots: seq<Option<T>>, els: seq<T>, from: nat)
    requires |els| == ResumeSlot + 1 && from <= |els|
    requires |slots| == from
    requires forall j | 0 <= j < from :: slots[j] == Some(els[j])
    ensures AttachFrom(slots, els, from) == seq(|els|, j requires 0 <= j < |els| => Some(els[j]))
    decreases |els| - from
  {
    if from < |els| {
      AttachFromFills(SetSlot(slots, Some(els[from]), from), els, from + 1);
    }
  }

  /** Committing the dropdown into an empty array gives one slot per link and
      one for Resume, each holding its own element. */
  lemma AttachAllFills<T>(els: seq<T>)
    requires |els| == ResumeSlot + 1
    ensures var slots := AttachFrom([], els, 0);
            && |slots| == 5
            && (forall j | 0 <= j < |NavItems| :: slots[j] == Some(els[j]))
            && slots[ResumeSlot] == Some(els[4])
  {
    AttachFromFills([], els, 0);
  }

  // ---------------------------------------------------------------------------
  // The menu icon

  /** The rotation the icon tween aims at, or None when the effect returns
      early (icon element missing, or not mounted yet). */
  function IconRotation(m: Menu, iconPresent: bool): (r: Option<int>)
    ensures r.Some? <==> iconPresent && m.mounted
    ensures r.Some? ==> (r.value == 90 <==> m.isOpen)
    ensures r.Some? ==> (r.value == 0 <==> !m.isOpen)
  {
    if !iconPresent || !m.mounted then None
    else Some(if m.isOpen then 90 else 0)
  }

  /** A desktop resize points a mounted icon back to its resting rotation. */
  lemma DesktopResizeRestsIcon(m: Menu, w: int)
    requires m.mounted && w >= DesktopBreakpoint
    ensures IconRotation(Step(m, Resize(w)), true) == Some(0)
  {
  }
}

=== FILE: nav_dropdown.dfy ===
/**
  The mobile dropdown's visibility as the navigation bar's effects drive it.
  Opening sets `display: block` before the opening tween starts; closing
  starts a closing tween whose completion callback sets `display: none`.
  Tweens are abstract: a closing tween is counted while it runs, and its
  completion is an input of its own.

  The effects as written never cancel a running closing tween (the tween
  engine does not overwrite by default, and the effect hook keeps its tweens
  across dependency changes), so a close followed quickly by a reopen lets the
  stale completion hide an open dropdown. `AsWritten` models that;
  `CancelOnOpen` kills closing tweens before opening, and the rest of the
  model uses it.
 */
module NavDropdown {
  import NavBar

  datatype Display = DisplayNone | DisplayBlock

  /** The dropdown element's CSS display and how many closing tweens are still
      running, each of which hides the element when it completes. */
  datatype Dropdown = Dropdown(display: Display, closing: nat)

  datatype Nav = Nav(menu: NavBar.Menu, dropdown: Dropdown)

  datatype Input = Ui(event: NavBar.Event) | CloseTweenDone

  datatype Policy = AsWritten | CancelOnOpen

  const Start: Nav := Nav(NavBar.Initial, Dropdown(DisplayBlock, 0))

  /** The one-time setup effect on mount: hide the dropdown completely. */
  function Setup(d: Dropdown): (r: Dropdown)
    ensures r.display == DisplayNone && r.closing == d.closing
  {
    d.(display := DisplayNone)
  }

  /** The open/close effect once its guard has passed. */
  function Animate(policy: Policy, isOpen: bool, d: Dropdown): (r: Dropdown)
    ensures isOpen ==> r.display == DisplayBlock
    ensures !isOpen ==> r == d.(closing := d.closing + 1)
    ensures isOpen && policy.CancelOnOpen? ==> r.closing == 0
    ensures isOpen && policy.AsWritten? ==> r.closing == d.closing
  {
    if isOpen then
      match policy
      case AsWritten => d.(display := DisplayBlock)
      case CancelOnOpen => Dropdown(DisplayBlock, 0)
    else d.(closing := d.closing + 1)
  }

  /** One input. A UI event updates the menu, then runs the effects whose
      dependencies changed: on mount the setup effect and then the open/close
      effect; afterwards the open/close effect whenever `isOpen` changes. The
      open/close effect returns early until mounted, and the dropdown element
      exists exactly when mounted. */
  function Step(policy: Policy, n: Nav, i: Input): (r: Nav)
    ensures i.Ui? ==> r.menu == NavBar.Step(n.menu, i.event)
    ensures i.CloseTweenDone? ==> r.menu == n.menu
    ensures r.dropdown.display == DisplayNone && n.dropdown.display == DisplayBlock ==>
              (i.CloseTweenDone? && n.dropdown.closing > 0) || (i.Ui? && i.event.Mount? && !n.menu.mounted)
  {
    match i
    case CloseTweenDone =>
      if n.dropdown.closing == 0 then n
      else n.(dropdown := Dropdown(DisplayNone, n.dropdown.closing - 1))
    case Ui(e) =>
      var m := NavBar.Step(n.menu, e);
      var d :=
        if !n.menu.mounted && m.mounted then Animate(policy, m.isOpen, Setup(n.dropdown))
        else if m.mounted && m.isOpen != n.menu.isOpen then Animate(policy, m.isOpen, n.dropdown)
        else n.dropdown;
      Nav(m, d)
  }

  function Run(policy: Policy, n: Nav, ins: seq<Input>): Nav
    decreases |ins|
  {
    if |ins| == 0 then n else Run(policy, Step(policy, n, ins[0]), ins[1..])
  }

  /** What the menu promises the user: an open menu shows its dropdown, and a
      closed one is hidden unless a closing tween is still playing. */
  predicate Consistent(n: Nav)
  {
    && (!n.menu.mounted ==> n.dropdown.closing == 0)
    && (n.menu.mounted && n.menu.isOpen ==> n.dropdown.display == DisplayBlock && n.dropdown.closing == 0)
    && (n.menu.mounted && !n.menu.isOpen ==> n.dropdown.display == DisplayNone || n.dropdown.closing > 0)
  }

  /** Opening shows the element at once, before any tween has run. */
  lemma OpeningShowsImmediately(policy: Policy, n: Nav, e: NavBar.Event)
    requires n.menu.mounted && !n.menu.isOpen
    requires NavBar.Step(n.menu, e).isOpen
    ensures Step(policy, n, Ui(e)).dropdown.display == DisplayBlock
  {
  }

  /** A UI event never hides the element itself, except for the setup effect
      at mount: hiding waits for a closing tween to complete. */
  lemma HidingWaitsForTween(policy: Policy, n: Nav, e: NavBar.Event)
    requires Step(policy, n, Ui(e)).dropdown.display == DisplayNone
    ensures n.dropdown.display == DisplayNone || (!n.menu.mounted && e.Mount?)
  {
  }

  /** Before mount, the open/close effect does nothing. */
  lemma NoEffectBeforeMount(policy: Policy, n: Nav, e: NavBar.Event)
    requires !e.Mount? && !n.menu.mounted
    ensures Step(policy, n, Ui(e)).dropdown == n.dropdown
  {
  }

  lemma CancelOnOpenPreservesConsistent(n: Nav, i: Input)
    requires Consistent(n)
    ensures Consistent(Step(CancelOnOpen, n, i))
  {
  }

  /** With closing tweens cancelled on open, every reachable state keeps the
      promise, whatever the order and timing of inputs. */
  lemma {:induction false} CancelOnOpenAlwaysConsistent(n: Nav, ins: seq<Input>)
    requires Consistent(n)
    ensures Consistent(Run(CancelOnOpen, n, ins))
    decreases |ins|
  {
    if |ins| > 0 {
      CancelOnOpenPreservesConsistent(n, ins[0]);
      CancelOnOpenAlwaysConsistent(Step(CancelOnOpen, n, ins[0]), ins[1..]);
    }
  }

  lemma OpenMenuIsVisible(ins: seq<Input>)
    ensures var n := Run(CancelOnOpen, Start, ins);
            n.menu.mounted && n.menu.isOpen ==> n.dropdown.display == DisplayBlock
  {
    CancelOnOpenAlwaysConsistent(Start, ins);
  }

  /** Mount, let the initial closing tween finish, open, close, reopen within
      the closing tween's duration, and let the stale closing tween finish. */
  const StaleCloseTrace: seq<Input> := [
    Ui(NavBar.Mount), CloseTweenDone,
    Ui(NavBar.Toggle), Ui(NavBar.Toggle), Ui(NavBar.Toggle),
    CloseTweenDone
  ]

  /** As written, that trace leaves the menu open with its dropdown hidden. */
  lemma AsWrittenHidesOpenMenu()
    ensures var n := Run(AsWritten, Start, StaleCloseTrace);
            && n.menu.mounted && n.menu.isOpen
            && n.dropdown.display == DisplayNone
            && !Consistent(n)
  {
  }

  /** The corrected effects keep the same trace consistent. */
  lemma CancelOnOpenShowsOpenMenu()
    ensures var n := Run(CancelOnOpen, Start, StaleCloseTrace);
            n.menu.isOpen && n.dropdown.display == DisplayBlock
  {
  }
}
